=== FILE: README.md ===
# Task-entry form logic of OneMoreTime, modelled in Dafny

OneMoreTime is a personal task planner. Its task-entry form
(`src/components/TaskInputSimplified.tsx`) decides, on every edit, how many
hours a draft task stands for, which work cadences are allowed before its
deadline, whether to ask the scheduling engine about cadence conflicts or a
one-sitting time slot, whether the draft is valid, and what task record a
valid draft becomes. This project takes that decision logic out of React and
states it as pure functions over an immutable form record, with contracts and
lemmas about them.

Modules:

- `Text` (text.dfy): JavaScript `trim`, the "field is filled in" test, and
  decimal rendering of whole numbers.
- `Projection` (projection.dfy): the four cadences and the work-day
  projection. It has `Math.ceil` and JavaScript's truncating `%` written out
  exactly, so deadlines before the start date are modelled too.
- `Form` (form.dfy): the form record, fractional hours, the session-based
  total, the effective total, the cadence restrictions, and the form's
  reactive corrections as state-to-state functions. These are deadline-type
  detection, the one-sitting reset, and the cadence auto-adjust. The module
  also has the session-length clamp.
- `Scheduling` (scheduling.dfy): the two calls into the scheduling engine and
  when they happen. The engine is a value holding two arbitrary functions, so
  every property holds whatever the engine answers.
- `Validation` (validation.dfy): the validity test and the error list.
- `Submit` (submit.dfy): the submitted task record.
- `Display` (display.dfy): the "Not set" / "2h" / "45m" / "1h 30m" label, and
  a reader that recovers hours and minutes from it.

Conventions:

- Dates stay ISO text, as in the form. A `Calendar` value carries today's
  date and `dayOf`, the day number a date string denotes. So
  `DaysUntilDeadline` is the millisecond difference divided by one day, which
  is exact for date-only strings.
- Hour and minute fields hold a natural number: the value their text parses
  to when that is not negative. An empty field reads as 0.
- Durations are exact `real`s.

The three-times-a-week projection is reproduced as written:
`floor(3n/7) + min(3, n % 7)`. It is not bounded by the number of days and it
is not monotone. `ThreeXWeekNotMonotone` fixes three values: 3 days give 4,
6 days give 5, and 7 days give 3. `ThreeXWeekExceedsDaysOnlyAtThree` shows
that, among ranges of zero or more days, 3 days is the only one where the
count exceeds the days.
`ThreeXWeekIsPatternPlusOvershoot` shows that the count is a strict
three-days-a-week pattern plus an overshoot of `floor(3r/7)`, where `r` is
the leftover days.

The validity test accepts a stale direct estimate in session mode, but the
submitted hours come from the session projection. `SessionModeMaySubmitZeroHours`
gives a draft that is accepted and submitted with 0 hours.

## Model

| member | source | states |
|---|---|---|
| Form.DecimalHours | src/components/TaskInputSimplified.tsx:88-90 | fractional hours times 60 is the whole number of minutes; they are at least the hour count, and positive exactly when hours or minutes are |
| Form.DecimalHoursInjective | src/components/TaskInputSimplified.tsx:88-90 | with minutes below 60, equal fractional hours mean equal hours and minutes |
| Projection.CeilDiv | src/components/TaskInputSimplified.tsx:115 | `Math.ceil(a / b)` is the least q with a <= b*q |
| Projection.TruncRem | src/components/TaskInputSimplified.tsx:112 | JavaScript `%` is the remainder of the quotient rounded toward zero and takes the dividend's sign |
| Projection.TotalDaysCountsRange | src/components/TaskInputSimplified.tsx:104 | for a deadline not before the start day, the total is the number of days from the start day through the deadline day, both counted |
| Projection.WorkDays | src/components/TaskInputSimplified.tsx:106-122 | every cadence projects at least one work day once the range has a day, and no positive number of days when the deadline precedes the start |
| Projection.DailyIsEveryDay | src/components/TaskInputSimplified.tsx:108-110 | daily work uses every day of the inclusive range |
| Projection.WeeklyIsFirstDayOfEachWeek | src/components/TaskInputSimplified.tsx:114-116 | weekly work is one day per started week (the pattern count with one day per week) |
| Projection.ThreeXWeekIsPatternPlusOvershoot | src/components/TaskInputSimplified.tsx:111-113 | the 3x-week count is the three-days-per-week pattern plus floor(3r/7) for r = n mod 7 |
| Projection.ThreeXWeekExceedsDaysOnlyAtThree | src/components/TaskInputSimplified.tsx:112 | for n >= 0 the 3x-week count exceeds n exactly when n = 3 |
| Projection.ThreeXWeekNotMonotone | src/components/TaskInputSimplified.tsx:112 | 3 days give 4 work days, 6 give 5, 7 give 3 |
| Projection.SparseCadencesWithinRange | src/components/TaskInputSimplified.tsx:114-119 | for n >= 1 the weekly and flexible counts lie in [1, n], and weekly never exceeds flexible |
| Projection.WorkDaysAtMostOneExtra | src/components/TaskInputSimplified.tsx:106-122 | for n >= 1 days, no cadence projects more than n + 1 work days |
| Form.SessionDuration | src/components/TaskInputSimplified.tsx:98 | a session's length is never negative, and positive exactly when its hours or minutes are |
| Form.DaysUntilDeadline | src/components/TaskInputSimplified.tsx:141-144 | the day count is non-negative exactly when the deadline is on or after the start date, or today when no start date is set |
| Form.DaysUntilDeadlineCountsDaysAfterStart | src/components/TaskInputSimplified.tsx:141-144 | the day count is the number of days after the start day up to the deadline day, without the start day; negated when the deadline comes first |
| Form.SessionBasedTotal | src/components/TaskInputSimplified.tsx:93-125 | with an applicable deadline in session mode the total is the session length times the projected work days; it is positive exactly when, in addition, the session is non-zero and a work day is projected; a negative total means a negative projection |
| Form.SessionTotalZeroCases | src/components/TaskInputSimplified.tsx:94-99 | the total is 0 outside session mode, without a deadline, with deadline type none, or with a zero session |
| Form.SessionTotalCoversOneSession | src/components/TaskInputSimplified.tsx:98-124 | with a deadline on or after the start day, the total is at least one session |
| Form.EffectiveTotalTime | src/components/TaskInputSimplified.tsx:128-133 | the hours are positive, so the engine is consulted, exactly when hours or minutes are entered in total mode, or in session mode when a deadline applies, the session has a length and a work day is projected; total mode gives exactly the entered minutes over 60 |
| Form.FrequencyRestrictions | src/components/TaskInputSimplified.tsx:136-150 | nothing is disabled without an applicable deadline; otherwise weekly is disabled iff fewer than 14 days remain and 3x-week iff fewer than 7; disabled 3x-week implies disabled weekly |
| Form.AdjustFrequency | src/components/TaskInputSimplified.tsx:152-160 | the resulting cadence is never disabled; only the cadence changes, and only from a disabled one to daily |
| Form.AutoAdjustFrequency | src/components/TaskInputSimplified.tsx:136-160 | after the effect the selected cadence is not disabled under the state's own restrictions |
| Form.NormaliseDeadlineType | src/components/TaskInputSimplified.tsx:67-77 | a blank deadline forces type none; a filled-in one turns none into hard and keeps hard or soft; nothing else changes |
| Form.NormaliseDeadlineTypeIdempotent | src/components/TaskInputSimplified.tsx:67-77 | applying deadline-type detection twice equals applying it once |
| Form.ResetForOneSitting | src/components/TaskInputSimplified.tsx:80-85 | a one-sitting task gets cadence daily and estimation mode total; other fields and other tasks are untouched |
| Form.ResetForOneSittingIdempotent | src/components/TaskInputSimplified.tsx:80-85 | applying the one-sitting reset twice equals applying it once |
| Form.Settle | src/components/TaskInputSimplified.tsx:67-160 | after the corrections the deadline type is none exactly when the deadline is blank, a one-sitting task works daily in total mode, the cadence is not disabled, an applicable deadline type is kept, and only deadline type, cadence and estimation mode can change |
| Form.SettledIsStable | src/components/TaskInputSimplified.tsx:67-160 | after all three corrections none of them fires again |
| Form.ClampMaxSessionLength | src/components/TaskInputSimplified.tsx:895 | the length is within [0.5, 8]; unparsable or zero input gives 2; in-range input is kept; larger input gives 8, smaller gives 0.5 |
| Form.ClampIdempotent | src/components/TaskInputSimplified.tsx:895 | re-entering a clamped length keeps it |
| Scheduling.DeadlineConflict | src/components/TaskInputSimplified.tsx:163-180 | no conflict and no engine call without a deadline, with type none, for a one-sitting task or with no effective hours; otherwise the engine's verdict on exactly the form's cadence, hours, deadline, start date or today, and daily hours |
| Scheduling.ConflictNeedsEngine | src/components/TaskInputSimplified.tsx:163-180 | a reported conflict implies an applicable deadline, several sittings, positive hours and an engine conflict on those arguments |
| Scheduling.SkippedConflictIgnoresEngine | src/components/TaskInputSimplified.tsx:164-171 | when the check is skipped, any two engines give the same verdict |
| Scheduling.SlotMessage | src/components/TaskInputSimplified.tsx:213 | the message is the engine's reason when it is non-empty, and the fixed fallback text otherwise; it is never empty |
| Scheduling.OneSittingSlotCheck | src/components/TaskInputSimplified.tsx:196-218 | a slot is missing iff the task is one-sitting with a deadline and positive hours and the engine finds none on the deadline date; the message is empty iff a slot exists |
| Scheduling.MultiSessionAlwaysHasSlot | src/components/TaskInputSimplified.tsx:197-199 | a task of several sittings always has a slot with an empty message |
| Validation.IsFormValid | src/components/TaskInputSimplified.tsx:222-227 | a valid draft has a non-blank title and an importance; in total mode it carries positive hours; a valid one-sitting task has a deadline and fits in the daily hours |
| Validation.TotalModeEstimateIsPositiveHours | src/components/TaskInputSimplified.tsx:223 | in total mode the time requirement holds exactly when the task carries positive hours |
| Validation.Errors | src/components/TaskInputSimplified.tsx:238-251 | each requirement appears in the list exactly when the draft fails it, in strictly increasing display order, so at most once; the list is empty exactly when no requirement fails |
| Validation.ValidationErrors | src/components/TaskInputSimplified.tsx:238-251 | the i-th message is the text of the i-th failed requirement, so the messages come in display order, one per failed requirement |
| Validation.ValidIffNoErrors | src/components/TaskInputSimplified.tsx:222-251 | the validity test holds exactly when the error list is empty |
| Validation.OneSittingChecksOnlyForOneSitting | src/components/TaskInputSimplified.tsx:247-249 | a task of several sittings never gets the deadline, too-long or no-slot errors |
| Submit.ToTask | src/components/TaskInputSimplified.tsx:264-284 | the submitted record: trimmed title and description, effective hours, the free-text category when "Custom..." is chosen, pending status, priority and importance meaning high impact, a session cap exactly for deadline type none, a preferred session length exactly in session mode, the start date or today, every other field copied |
| Submit.HandleSubmit | src/components/TaskInputSimplified.tsx:258-285 | a task is produced exactly for a valid form; it is the mapped task record, and its title is never empty |
| Submit.SubmittedOneSittingFits | src/components/TaskInputSimplified.tsx:222-227 | a submitted one-sitting task has a deadline, fits within the daily hours, and the engine found a slot when it needs time |
| Submit.SubmittedTotalModeHasHours | src/components/TaskInputSimplified.tsx:222-223 | a submitted total-mode task has positive hours |
| Submit.SessionModeMaySubmitZeroHours | src/components/TaskInputSimplified.tsx:222-223 | a session-mode draft with no deadline and a stale direct estimate is accepted and submitted with 0 hours |
| Display.FormatTimeDisplay | src/components/TaskInputSimplified.tsx:229-236 | the label is "Not set" exactly when hours and minutes are both 0; otherwise it is the minutes then "m" with no hours, the hours then "h" with no minutes, and the hours, "h ", the minutes and "m" otherwise, numbers in plain decimal |
| Display.FormatTimeDisplayRoundTrip | src/components/TaskInputSimplified.tsx:229-236 | reading a label back gives the hours and minutes it was made from |
| Display.FormatTimeDisplayInjective | src/components/TaskInputSimplified.tsx:229-236 | different hour-minute pairs get different labels |
| Text.Trim | src/components/TaskInputSimplified.tsx:240 | the text is blank padding, the result, then blank padding; the result does not start or end with whitespace, and is empty exactly for blank text |
| Text.TrimIdempotent | src/components/TaskInputSimplified.tsx:269 | trimming a trimmed title changes nothing |
| Text.NatToString | src/components/TaskInputSimplified.tsx:233-235 | a number prints as a non-empty digit string without leading zeros |
| Text.ParseNatToString | src/components/TaskInputSimplified.tsx:233-235 | reading back a printed number gives the number |

## Left out

- Rendering, CSS, presets, modal and visibility state, the help text and the
  `TimeEstimationModal` child (lines 38-64 and 331-991) are UI, not logic.
  The submit handler's hide-and-reset tail (lines 286-309) is left out too.
- The scheduling engine in `../utils/scheduling` is not part of this model.
  This covers `checkFrequencyDeadlineConflict`, `findNextAvailableTimeSlot`,
  `doesCommitmentApplyToDate` and `getEffectiveStudyWindow`. The first two are
  arbitrary functions in an `Engine` value. User settings, fixed commitments
  and study plans are fixed inside `findSlot`. The last two are imported but
  never called in the form.
- Wall-clock reads (`today`, `new Date()`) are the `Calendar` parameter.
  JavaScript date parsing is its `dayOf` function. Malformed or
  whitespace-only date strings, which JavaScript turns into NaN, are not
  modelled.
- Projection.WorkDays: the flexible count is `ceil(7n/10)` on exact
  integers. JavaScript computes `Math.ceil(n * 0.7)` in floating point, and
  the rounding of `0.7` is not modelled. The `/60` of `convertToDecimalHours`
  is exact too.
- Negative hour or minute values are not modelled. The number inputs say
  `min="0"` (for example lines 743-749), but typed text such as "-1" still
  parses to -1, and the `sessionDuration <= 0` guard on line 99 exists for
  such values. With natural-number fields, the "positive exactly when hours
  or minutes are" contracts of `Form.DecimalHours` and `Form.SessionDuration`
  hold only for non-negative entries.
- `parseInt` returning NaN for non-numeric hour or minute text is not
  modelled. Fields are natural numbers, so `ValidIffNoErrors` assumes they
  parse.
- The `default` branch of the cadence switch is not modelled. The cadence is
  an enumeration of the four select options, so no value reaches that branch.
  The branch would behave like daily.
- `isLowPriorityUrgent` (lines 322-328) is not modelled. It reads the clock,
  and it tests an `importance` field the form record does not have, so it is
  always false.
- The estimate dialog's update handler (lines 312-319) is not modelled. It
  copies the dialog's hours, minutes and task type into the form record and
  decides nothing.
- `getValidationWarnings` (lines 253-256) is not modelled. It always returns
  an empty list.
- React effect and memo scheduling is not modelled. That covers dependency
  arrays and re-render order. Each effect is a pure correction, and
  `Form.Settle` and `SettledIsStable` describe the state the form reaches
  once every correction has run. React runs an effect only when one of its
  dependencies changes, so that state is not always reached. The
  deadline-type effect depends on the deadline text alone (line 77). The
  post-submit reset (lines 288-307) sets a blank deadline with type hard.
  After a task without a deadline is submitted, the deadline text stays
  empty and the effect does not run again. The form then rests with a blank
  deadline and type hard, which `Form.Settle` rules out. Read from the
  source, the next task without a deadline is then submitted with type hard
  and no session cap (line 281).
- Display.FormatTimeDisplay / Text.NatToString: JavaScript numbers are
  doubles, and the model prints every natural number in plain decimal. The
  labels agree with the source only below 1e21. From there on, `${n}`
  prints exponent form, for example "1e+21h". Hours and minutes are also
  exact only below 2^53, the range where `parseInt` is exact. So
  `FormatTimeDisplayRoundTrip` and `FormatTimeDisplayInjective` describe
  the source only within those bounds.
- Text.IsWhitespace: the whitespace set follows ECMAScript's WhiteSpace and
  LineTerminator. Other Unicode space separators that a particular engine may
  add are not listed.

=== FILE: display.dfy ===
/**
 The compact time label of the form ("Not set", "45m", "2h", "1h 30m") and
 a reader that recovers hours and minutes from it.
 */
module Display {
  import opened Optional
  import opened Text

  const NotSet := "Not set"

  /** The label for `h` hours and `m` minutes. */
  function FormatTimeDisplay(h: nat, m: nat): (r: string)
    ensures r == NotSet <==> h == 0 && m == 0
    ensures r != [] && (r != NotSet ==> IsDigit(r[0]) && (r[|r| - 1] == 'h' <==> m == 0))
    ensures h == 0 && m != 0 ==> r == NatToString(m) + "m"
    ensures h != 0 && m == 0 ==> r == NatToString(h) + "h"
    ensures h != 0 && m != 0 ==> r == NatToString(h) + "h " + NatToString(m) + "m"
  {
    var r :=
      if h == 0 && m == 0 then NotSet
      else if h == 0 then NatToString(m) + "m"
      else if m == 0 then NatToString(h) + "h"
      else NatToString(h) + "h " + NatToString(m) + "m";
    assert r != NotSet <== (h != 0 || m != 0) by {
      if h != 0 || m != 0 {
        assert r[0] == (if h == 0 then NatToString(m) else NatToString(h))[0];
      }
    }
    r
  }

  /** Index of the first `c` in `s`, or `|s|` when there is none. */
  function IndexOf(s: string, c: char): (i: nat)
    ensures i <= |s|
    ensures i < |s| ==> s[i] == c
    ensures forall k :: 0 <= k < i ==> s[k] != c
  {
    if s == [] then 0
    else if s[0] == c then 0
    else 1 + IndexOf(s[1..], c)
  }

  /** Reads a label back into hours and minutes. */
  function ParseTimeDisplay(s: string): Option<(nat, nat)> {
    if s == NotSet then Some((0, 0))
    else if |s| < 2 then None
    else
      var body := s[..|s| - 1];
      if s[|s| - 1] == 'h' && IsDigits(body) then Some((ParseDigits(body), 0))
      else if s[|s| - 1] == 'm' && IsDigits(body) then Some((0, ParseDigits(body)))
      else if s[|s| - 1] == 'm' then
        var i := IndexOf(body, 'h');
        if i + 1 < |body| && body[i + 1] == ' ' && IsDigits(body[..i]) && IsDigits(body[i + 2..])
        then Some((ParseDigits(body[..i]), ParseDigits(body[i + 2..])))
        else None
      else None
  }

  lemma IndexOfAfterDigits(a: string, rest: string, c: char)
    requires IsDigits(a) && !IsDigit(c)
    ensures IndexOf(a + [c] + rest, c) == |a|
  {
    var s := a + [c] + rest;
    assert s[|a|] == c;
    assert forall k :: 0 <= k < |a| ==> s[k] == a[k] && IsDigit(s[k]);
  }

  lemma RoundTripMinutesOnly(m: nat)
    requires m != 0
    ensures ParseTimeDisplay(FormatTimeDisplay(0, m)) == Some((0, m))
  {
    var s := FormatTimeDisplay(0, m);
    ParseNatToString(m);
    assert s[..|s| - 1] == NatToString(m);
  }

  lemma RoundTripHoursOnly(h: nat)
    requires h != 0
    ensures ParseTimeDisplay(FormatTimeDisplay(h, 0)) == Some((h, 0))
  {
    var s := FormatTimeDisplay(h, 0);
    ParseNatToString(h);
    assert s[..|s| - 1] == NatToString(h);
  }

  lemma ParseCombined(a: string, b: string)
    requires IsDigits(a) && IsDigits(b) && a != [] && b != []
    ensures ParseTimeDisplay(a + "h " + b + "m") == Some((ParseDigits(a), ParseDigits(b)))
  {
    var s := a + "h " + b + "m";
    var body := s[..|s| - 1];
    assert s != NotSet by {
      assert s[0] == a[0];
    }
    assert body == a + ['h'] + ([' '] + b);
    assert !IsDigits(body) by {
      assert body[|a|] == 'h';
    }
    IndexOfAfterDigits(a, [' '] + b, 'h');
    assert body[..|a|] == a;
    assert body[|a| + 2..] == b;
  }

  lemma RoundTripBoth(h: nat, m: nat)
    requires h != 0 && m != 0
    ensures ParseTimeDisplay(FormatTimeDisplay(h, m)) == Some((h, m))
  {
    ParseNatToString(h);
    ParseNatToString(m);
    ParseCombined(NatToString(h), NatToString(m));
  }

  /** Every label reads back as the hours and minutes it was made from. */
  lemma FormatTimeDisplayRoundTrip(h: nat, m: nat)
    ensures ParseTimeDisplay(FormatTimeDisplay(h, m)) == Some((h, m))
  {
    if h == 0 && m != 0 {
      RoundTripMinutesOnly(m);
    } else if h != 0 && m == 0 {
      RoundTripHoursOnly(h);
    } else if h != 0 && m != 0 {
      RoundTripBoth(h, m);
    }
  }

  /** Different hours-and-minutes pairs get different labels. */
  lemma FormatTimeDisplayInjective(h1: nat, m1: nat, h2: nat, m2: nat)
    requires FormatTimeDisplay(h1, m1) == FormatTimeDisplay(h2, m2)
    ensures h1 == h2 && m1 == m2
  {
    FormatTimeDisplayRoundTrip(h1, m1);
    FormatTimeDisplayRoundTrip(h2, m2);
  }
}

=== FILE: form.dfy ===
/**
 The task-entry form as an immutable record, the time arithmetic derived from
 it, the cadence restrictions, and the form's reactive corrections written as
 pure state-to-state functions.
 */
module Form {
  import opened Optional
  import opened Text
  import opened Projection

  datatype DeadlineType = Hard | Soft | NoDeadline

  datatype EstimationMode = Total | Session

  datatype SchedulingPreference = Consistent | Opportunistic | Intensive

  /**
   The form's fields. Hour and minute fields hold the numbers their text
   parses to (an empty field reads as 0); dates are ISO `YYYY-MM-DD` text,
   with `""` meaning "not set".
   */
  datatype FormState = FormState(
    title: string,
    description: string,
    deadline: string,
    estimatedHours: nat,
    estimatedMinutes: nat,
    category: string,
    customCategory: string,
    impact: string,
    taskType: string,
    deadlineType: DeadlineType,
    schedulingPreference: SchedulingPreference,
    targetFrequency: Frequency,
    maxSessionLength: real,
    isOneTimeTask: bool,
    startDate: string,
    estimationMode: EstimationMode,
    sessionDurationHours: nat,
    sessionDurationMinutes: nat
  )

  /**
   The ambient date context made explicit: today's ISO date, and the day
   ordinal a date string denotes (its epoch milliseconds divided by one day).
   */
  datatype Calendar = Calendar(today: string, dayOf: string -> int)

  /** `hours + minutes / 60`, as fractional hours. */
  function DecimalHours(hours: nat, minutes: nat): (r: real)
    ensures r * 60.0 == (hours * 60 + minutes) as real
    ensures r >= hours as real
    ensures r > 0.0 <==> hours > 0 || minutes > 0
  {
    hours as real + minutes as real / 60.0
  }

  /** With minutes below an hour, the fractional hours determine both fields. */
  lemma DecimalHoursInjective(h1: nat, m1: nat, h2: nat, m2: nat)
    requires m1 < 60 && m2 < 60
    requires DecimalHours(h1, m1) == DecimalHours(h2, m2)
    ensures h1 == h2 && m1 == m2
  {
    assert h1 * 60 + m1 == h2 * 60 + m2;
  }

  /** The start date, falling back to today when the field is empty. */
  function StartOrToday(s: FormState, cal: Calendar): string
  {
    if s.startDate == "" then cal.today else s.startDate
  }

  /** Whole days from the start date (or today) to the deadline, not counting the start day. */
  function DaysUntilDeadline(s: FormState, cal: Calendar): (days: int)
    ensures days >= 0 <==> cal.dayOf(s.deadline) >= cal.dayOf(StartOrToday(s, cal))
  {
    cal.dayOf(s.deadline) - cal.dayOf(StartOrToday(s, cal))
  }

  /**
   The day count is the number of days after the start day up to and
   including the deadline day, and minus the number of days after the
   deadline up to and including the start day when the deadline comes first.
   */
  lemma DaysUntilDeadlineCountsDaysAfterStart(s: FormState, cal: Calendar)
    ensures var start, end := cal.dayOf(StartOrToday(s, cal)), cal.dayOf(s.deadline);
      && (start <= end ==> DaysUntilDeadline(s, cal) == DaysThrough(start + 1, end))
      && (end < start ==> DaysUntilDeadline(s, cal) + DaysThrough(end + 1, start) == 0)
  {
    var start, end := cal.dayOf(StartOrToday(s, cal)), cal.dayOf(s.deadline);
    if start <= end {
      TotalDaysCountsRange(start + 1, end);
    } else {
      TotalDaysCountsRange(end + 1, start);
    }
  }

  /** A deadline is entered and its type is not 'none'. */
  predicate DeadlineApplies(s: FormState) {
    s.deadline != "" && s.deadlineType != NoDeadline
  }

  /** Length of one session in fractional hours; never negative. */
  function SessionDuration(s: FormState): (r: real)
    ensures r >= 0.0
    ensures r > 0.0 <==> s.sessionDurationHours > 0 || s.sessionDurationMinutes > 0
  {
    DecimalHours(s.sessionDurationHours, s.sessionDurationMinutes)
  }

  /** Projected work days of the current cadence over the inclusive date range. */
  function ProjectedWorkDays(s: FormState, cal: Calendar): int {
    WorkDays(s.targetFrequency, TotalDays(DaysUntilDeadline(s, cal)))
  }

  /**
   Total hours of a session-based estimate: one session per projected work
   day. It is positive exactly when a deadline applies in session mode, the
   session has a length, and at least one work day is projected.
   */
  function SessionBasedTotal(s: FormState, cal: Calendar): (r: real)
    ensures s.estimationMode == Session && DeadlineApplies(s) ==>
      r == SessionDuration(s) * ProjectedWorkDays(s, cal) as real
    ensures r > 0.0 <==>
      s.estimationMode == Session && DeadlineApplies(s) && SessionDuration(s) > 0.0
      && ProjectedWorkDays(s, cal) >= 1
    ensures r < 0.0 ==> ProjectedWorkDays(s, cal) < 0
    ensures s.estimationMode == Session && DeadlineApplies(s) && ProjectedWorkDays(s, cal) >= 1 ==>
      r >= SessionDuration(s)
  {
    if s.estimationMode != Session || !DeadlineApplies(s) then 0.0
    else SessionsOver(SessionDuration(s), ProjectedWorkDays(s, cal))
  }

  /**
   `duration` hours on each of `days` days, skipped when the session is
   empty; the sign follows the number of days.
   */
  function SessionsOver(duration: real, days: int): (r: real)
    requires duration >= 0.0
    ensures r == duration * days as real
    ensures r > 0.0 <==> duration > 0.0 && days >= 1
    ensures r < 0.0 ==> days < 0
    ensures days >= 1 ==> r >= duration
  {
    ProductSign(duration, days);
    if duration <= 0.0 then 0.0 else duration * days as real
  }

  lemma ProductSign(d: real, w: int)
    requires d >= 0.0
    ensures d == 0.0 ==> d * w as real == 0.0
    ensures d > 0.0 ==> (d * w as real > 0.0 <==> w >= 1) && (d * w as real < 0.0 <==> w < 0)
    ensures w >= 1 ==> d * w as real >= d
  {
    if w >= 1 {
      assert d * w as real == d + d * (w - 1) as real;
    }
  }

  /** The session total is zero whenever the session estimate does not apply. */
  lemma SessionTotalZeroCases(s: FormState, cal: Calendar)
    requires s.estimationMode != Session || s.deadline == "" || s.deadlineType == NoDeadline
             || (s.sessionDurationHours == 0 && s.sessionDurationMinutes == 0)
    ensures SessionBasedTotal(s, cal) == 0.0
  {
  }

  /**
   When the deadline is on or after the start day, the session total covers
   at least one session.
   */
  lemma SessionTotalCoversOneSession(s: FormState, cal: Calendar)
    requires s.estimationMode == Session && DeadlineApplies(s)
    requires DaysUntilDeadline(s, cal) >= 0
    ensures SessionBasedTotal(s, cal) >= SessionDuration(s)
  {
  }

  /**
   The hours the task will be scheduled for: session projection or direct
   entry. It is positive, so the engine is asked about it, exactly when a
   direct estimate is entered in total mode, or in session mode when a
   deadline applies, the session has a length and a work day is projected.
   */
  function EffectiveTotalTime(s: FormState, cal: Calendar): (r: real)
    ensures s.estimationMode == Total ==>
      r * 60.0 == (s.estimatedHours * 60 + s.estimatedMinutes) as real
    ensures s.estimationMode == Session ==> r == SessionBasedTotal(s, cal)
    ensures r > 0.0 <==>
      || (s.estimationMode == Total && (s.estimatedHours > 0 || s.estimatedMinutes > 0))
      || (s.estimationMode == Session && DeadlineApplies(s) && SessionDuration(s) > 0.0
          && ProjectedWorkDays(s, cal) >= 1)
  {
    match s.estimationMode
    case Session => SessionBasedTotal(s, cal)
    case Total => DecimalHours(s.estimatedHours, s.estimatedMinutes)
  }

  /** Which cadences the form disables for the current date range. */
  datatype Restrictions = Restrictions(disableWeekly: bool, disable3xWeek: bool)

  predicate Disabled(r: Restrictions, f: Frequency) {
    (f == Weekly && r.disableWeekly) || (f == ThreeXWeek && r.disable3xWeek)
  }

  /**
   Weekly needs two weeks before the deadline and three-times-a-week one;
   without an applicable deadline nothing is disabled. Disabling
   three-times-a-week therefore always disables weekly too.
   */
  function FrequencyRestrictions(s: FormState, cal: Calendar): (r: Restrictions)
    ensures !DeadlineApplies(s) ==> !r.disableWeekly && !r.disable3xWeek
    ensures DeadlineApplies(s) ==> (r.disableWeekly <==> DaysUntilDeadline(s, cal) < 14)
    ensures DeadlineApplies(s) ==> (r.disable3xWeek <==> DaysUntilDeadline(s, cal) < 7)
    ensures r.disable3xWeek ==> r.disableWeekly
    ensures !Disabled(r, Daily) && !Disabled(r, Flexible)
  {
    if !DeadlineApplies(s) then Restrictions(false, false)
    else
      var days := DaysUntilDeadline(s, cal);
      Restrictions(days < 14, days < 7)
  }

  /**
   The auto-adjust effect: a disabled cadence falls back to daily; only the
   cadence may change, and only from weekly or three-times-a-week to daily.
   */
  function AdjustFrequency(s: FormState, r: Restrictions): (t: FormState)
    ensures !Disabled(r, t.targetFrequency)
    ensures t == s.(targetFrequency := t.targetFrequency)
    ensures t.targetFrequency != s.targetFrequency ==>
      t.targetFrequency == Daily && Disabled(r, s.targetFrequency)
    ensures !Disabled(r, s.targetFrequency) ==> t == s
  {
    var f :=
      if r.disableWeekly && s.targetFrequency == Weekly then Daily
      else if r.disable3xWeek && s.targetFrequency == ThreeXWeek then Daily
      else s.targetFrequency;
    s.(targetFrequency := f)
  }

  /** The auto-adjust effect against the restrictions of the state itself. */
  function AutoAdjustFrequency(s: FormState, cal: Calendar): (t: FormState)
    ensures !Disabled(FrequencyRestrictions(t, cal), t.targetFrequency)
    ensures t == s.(targetFrequency := t.targetFrequency)
  {
    AdjustFrequency(s, FrequencyRestrictions(s, cal))
  }

  /**
   Deadline-type detection: a blank deadline forces 'none'; a filled-in
   deadline turns 'none' into 'hard' and keeps 'hard' or 'soft'.
   */
  function NormaliseDeadlineType(s: FormState): (t: FormState)
    ensures IsBlank(s.deadline) ==> t.deadlineType == NoDeadline
    ensures !IsBlank(s.deadline) ==>
      t.deadlineType == (if s.deadlineType == NoDeadline then Hard else s.deadlineType)
    ensures t == s.(deadlineType := t.deadlineType)
  {
    if s.deadline != "" && Trim(s.deadline) != "" then
      if s.deadlineType == NoDeadline then s.(deadlineType := Hard) else s
    else
      s.(deadlineType := NoDeadline)
  }

  lemma NormaliseDeadlineTypeIdempotent(s: FormState)
    ensures NormaliseDeadlineType(NormaliseDeadlineType(s)) == NormaliseDeadlineType(s)
  {
  }

  /**
   One-sitting reset: a one-sitting task works daily with a total estimate;
   nothing else changes, and other tasks are left alone.
   */
  function ResetForOneSitting(s: FormState): (t: FormState)
    ensures s.isOneTimeTask ==> t.targetFrequency == Daily && t.estimationMode == Total
    ensures t == s.(targetFrequency := t.targetFrequency, estimationMode := t.estimationMode)
    ensures !s.isOneTimeTask ==> t == s
  {
    if s.isOneTimeTask then s.(targetFrequency := Daily, estimationMode := Total) else s
  }

  lemma ResetForOneSittingIdempotent(s: FormState)
    ensures ResetForOneSitting(ResetForOneSitting(s)) == ResetForOneSitting(s)
  {
  }

  /**
   All three corrections applied in turn: the state the form comes to rest
   in. Its deadline type agrees with its deadline, a one-sitting task works
   daily with a total estimate, its cadence is not disabled, and only the
   deadline type, cadence and estimation mode can differ from the draft.
   */
  function Settle(s: FormState, cal: Calendar): (t: FormState)
    ensures IsBlank(t.deadline) <==> t.deadlineType == NoDeadline
    ensures t.isOneTimeTask ==> t.targetFrequency == Daily && t.estimationMode == Total
    ensures !Disabled(FrequencyRestrictions(t, cal), t.targetFrequency)
    ensures !IsBlank(s.deadline) && s.deadlineType != NoDeadline ==> t.deadlineType == s.deadlineType
    ensures !s.isOneTimeTask ==> t.estimationMode == s.estimationMode
    ensures t == s.(deadlineType := t.deadlineType, targetFrequency := t.targetFrequency,
                    estimationMode := t.estimationMode)
  {
    AutoAdjustFrequency(ResetForOneSitting(NormaliseDeadlineType(s)), cal)
  }

  /**
   A settled form is a fixed point of every correction, so no further
   correction fires.
   */
  lemma SettledIsStable(s: FormState, cal: Calendar)
    ensures var t := Settle(s, cal);
      && NormaliseDeadlineType(t) == t
      && ResetForOneSitting(t) == t
      && AutoAdjustFrequency(t, cal) == t
  {
  }

  /** The post-edit correction of the maximum session length field. */
  function ClampMaxSessionLength(parsed: Option<real>): (r: real)
    ensures 0.5 <= r <= 8.0
    ensures parsed == None || parsed == Some(0.0) ==> r == 2.0
    ensures parsed.Some? && 0.5 <= parsed.value <= 8.0 ==> r == parsed.value
    ensures parsed.Some? && parsed.value > 8.0 ==> r == 8.0
    ensures parsed.Some? && parsed.value != 0.0 && parsed.value < 0.5 ==> r == 0.5
  {
    var x := if parsed == None || parsed == Some(0.0) then 2.0 else parsed.value;
    if x > 8.0 then 8.0 else if x < 0.5 then 0.5 else x
  }

  /** Entering a clamped value again leaves it unchanged. */
  lemma ClampIdempotent(parsed: Option<real>)
    ensures ClampMaxSessionLength(Some(ClampMaxSessionLength(parsed))) == ClampMaxSessionLength(parsed)
  {
  }
}

=== FILE: optional.dfy ===
/** An optional value: JavaScript's `undefined` / NaN cases are `None`. */
module Optional {

  datatype Option<T> = None | Some(value: T)
}

=== FILE: projection.dfy ===
/**
 The work-day projection of the task form: how many days of work a cadence
 yields between a start date and a deadline. The arithmetic follows the
 JavaScript expressions exactly, including their behaviour when the deadline
 lies before the start date (a zero or negative day count).
 */
module Projection {

  /** The `targetFrequency` choices: 'daily', 'weekly', '3x-week', 'flexible'. */
  datatype Frequency = Daily | Weekly | ThreeXWeek | Flexible

  function Min(a: int, b: int): (m: int)
    ensures m <= a && m <= b && (m == a || m == b)
  {
    if a <= b then a else b
  }

  /** `Math.ceil(a / b)` for a positive divisor, on exact integers. */
  function CeilDiv(a: int, b: int): (q: int)
    requires b > 0
    ensures b * (q - 1) < a <= b * q
  {
    var f := (-a) / b;
    assert b * f <= -a < b * f + b;
    -f
  }

  /** `Math.trunc(a / b)`: the quotient rounded toward zero. */
  function TruncQuot(a: int, b: int): int
    requires b > 0
  {
    if a >= 0 then a / b else -((-a) / b)
  }

  /**
   JavaScript's `a % b`: the remainder of the quotient rounded toward zero,
   so it takes the sign of the dividend.
   */
  function TruncRem(a: int, b: int): (r: int)
    requires b > 0
    ensures a == b * TruncQuot(a, b) + r
    ensures a >= 0 ==> 0 <= r < b
    ensures a < 0 ==> -b < r <= 0
  {
    if a >= 0 then a % b else -((-a) % b)
  }

  /** Inclusive day count: the start day and the deadline day both count. */
  function TotalDays(daysBetween: int): int
  {
    daysBetween + 1
  }

  /** Reference count: how many day numbers lie in the closed range `[a, b]`. */
  function DaysThrough(a: int, b: int): nat
    decreases b - a
  {
    if b < a then 0 else DaysThrough(a, b - 1) + 1
  }

  /**
   For a start day `a` and a deadline day `b` not before the day preceding
   it, the inclusive count is the number of days from `a` through `b`.
   */
  lemma {:induction false} TotalDaysCountsRange(a: int, b: int)
    requires a <= b + 1
    ensures TotalDays(b - a) == DaysThrough(a, b)
    decreases b - a
  {
    if b >= a {
      TotalDaysCountsRange(a, b - 1);
    }
  }

  /**
   Projected number of working days among `totalDays` days under a cadence:
   every day, one day per started week, `floor(3n/7) + min(3, n % 7)` for
   three times a week, and `ceil(0.7 n)` for flexible.
   */
  function WorkDays(f: Frequency, totalDays: int): (r: int)
    ensures totalDays >= 1 ==> r >= 1
    ensures totalDays <= 0 ==> r <= 0
  {
    match f
    case Daily => totalDays
    case ThreeXWeek => (3 * totalDays) / 7 + Min(3, TruncRem(totalDays, 7))
    case Weekly => CeilDiv(totalDays, 7)
    case Flexible => CeilDiv(7 * totalDays, 10)
  }

  /**
   Reference count: the day offsets `k` in `[0, n)` whose place in their
   week, `k % 7`, is below `perWeek` -- the days a strict weekly pattern of
   `perWeek` working days would use.
   */
  function PatternDays(n: nat, perWeek: nat): nat
  {
    if n == 0 then 0
    else PatternDays(n - 1, perWeek) + (if (n - 1) % 7 < perWeek then 1 else 0)
  }

  /** Closed form of the weekly pattern count. */
  lemma {:induction false} PatternDaysClosedForm(n: nat, perWeek: nat)
    requires perWeek <= 7
    ensures PatternDays(n, perWeek) == perWeek * (n / 7) + Min(perWeek, n % 7)
  {
    if n > 0 {
      PatternDaysClosedForm(n - 1, perWeek);
      var q, r := (n - 1) / 7, (n - 1) % 7;
      assert n - 1 == 7 * q + r;
      if r == 6 {
        assert n == 7 * (q + 1) + 0;
        assert n / 7 == q + 1 && n % 7 == 0;
        assert perWeek * (q + 1) == perWeek * q + perWeek;
      } else {
        assert n == 7 * q + (r + 1);
        assert n / 7 == q && n % 7 == r + 1;
      }
    }
  }

  /** Daily work uses every day of the range. */
  lemma {:induction false} DailyIsEveryDay(n: nat)
    ensures WorkDays(Daily, n) == PatternDays(n, 7)
  {
    PatternDaysClosedForm(n, 7);
  }

  /** Weekly work uses the first day of every started week. */
  lemma {:induction false} WeeklyIsFirstDayOfEachWeek(n: nat)
    ensures WorkDays(Weekly, n) == PatternDays(n, 1)
  {
    PatternDaysClosedForm(n, 1);
    var q, r := n / 7, n % 7;
    assert n == 7 * q + r;
    if r == 0 {
      assert 7 * (q - 1) < n <= 7 * q;
    } else {
      assert 7 * q < n <= 7 * (q + 1);
    }
  }

  /**
   The three-times-a-week count is the strict pattern of three days per week
   plus an overshoot of `floor(3 r / 7)` for the `r = n % 7` leftover days:
   it floors `3 n / 7` where the pattern would floor `n / 7` first.
   */
  lemma {:induction false} ThreeXWeekIsPatternPlusOvershoot(n: nat)
    ensures WorkDays(ThreeXWeek, n) == PatternDays(n, 3) + (3 * (n % 7)) / 7
  {
    PatternDaysClosedForm(n, 3);
    var q, r := n / 7, n % 7;
    assert 3 * n == 7 * (3 * q) + 3 * r;
    assert (3 * n) / 7 == 3 * q + (3 * r) / 7;
  }

  /** Weekly and flexible cadences use at least one and at most all of the days. */
  lemma SparseCadencesWithinRange(n: int)
    requires n >= 1
    ensures 1 <= WorkDays(Weekly, n) <= n
    ensures 1 <= WorkDays(Flexible, n) <= n
    ensures WorkDays(Weekly, n) <= WorkDays(Flexible, n)
  {
    var w, fl := WorkDays(Weekly, n), WorkDays(Flexible, n);
    assert 7 * (w - 1) < n <= 7 * w;
    assert 10 * (fl - 1) < 7 * n <= 10 * fl;
  }

  /**
   The three-times-a-week count exceeds the number of days for exactly one
   range length: 3 days yield 4 work days.
   */
  lemma ThreeXWeekExceedsDaysOnlyAtThree(n: nat)
    ensures WorkDays(ThreeXWeek, n) > n <==> n == 3
  {
    ThreeXWeekIsPatternPlusOvershoot(n);
    PatternDaysClosedForm(n, 3);
    var q, r := n / 7, n % 7;
    assert n == 7 * q + r;
  }

  /** Values as written: 3 days give 4, 6 days give 5, 7 days give 3. */
  lemma ThreeXWeekNotMonotone()
    ensures WorkDays(ThreeXWeek, 3) == 4
    ensures WorkDays(ThreeXWeek, 6) == 5
    ensures WorkDays(ThreeXWeek, 7) == 3
  {
  }

  /** For a non-empty range, no cadence projects more than one extra day. */
  lemma WorkDaysAtMostOneExtra(f: Frequency, n: int)
    requires n >= 1
    ensures WorkDays(f, n) <= n + 1
  {
    match f
    case ThreeXWeek => ThreeXWeekExceedsDaysOnlyAtThree(n);
    case Weekly => SparseCadencesWithinRange(n);
    case Flexible => SparseCadencesWithinRange(n);
    case Daily =>
  }
}

=== FILE: scheduling.dfy ===
/**
 The form's two calls into the scheduling engine and the conditions under
 which it makes them. The engine itself (`checkFrequencyDeadlineConflict`
 and `findNextAvailableTimeSlot`) is not part of this model: it is a value of
 type `Engine`, two arbitrary functions, and every property below holds
 whatever those functions do.
 */
module Scheduling {
  import opened Optional
  import opened Projection
  import opened Form

  /** What the cadence feasibility check reports. */
  datatype ConflictResult = ConflictResult(
    hasConflict: bool,
    reason: Option<string>,
    recommendedFrequency: Option<Frequency>)

  /** What the slot search reports for one day. */
  datatype SlotResult = SlotResult(found: bool, reason: Option<string>)

  /**
   The engine as the form sees it. `checkConflict` takes cadence, hours
   needed, deadline, start date and daily available hours; `findSlot` takes
   the date and the duration, the user's settings, fixed commitments and
   existing study plans being fixed for the evaluation.
   */
  datatype Engine = Engine(
    checkConflict: (Frequency, real, string, string, real) -> ConflictResult,
    findSlot: (string, real) -> SlotResult)

  const NoConflict := ConflictResult(false, None, None)

  /** The cadence check is skipped: no deadline applies, the task is one sitting, or no time is needed. */
  predicate ConflictCheckSkipped(s: FormState, cal: Calendar) {
    || s.deadline == ""
    || s.deadlineType == NoDeadline
    || s.isOneTimeTask
    || EffectiveTotalTime(s, cal) <= 0.0
  }

  /**
   The deadline-conflict verdict: no conflict without asking the engine when
   the check is skipped, and otherwise exactly the engine's answer for the
   form's cadence, effective hours, deadline, start date (or today) and
   daily hours.
   */
  function DeadlineConflict(s: FormState, cal: Calendar, dailyHours: real, engine: Engine): (r: ConflictResult)
    ensures ConflictCheckSkipped(s, cal) ==> r == NoConflict
    ensures !ConflictCheckSkipped(s, cal) ==>
      r == engine.checkConflict(s.targetFrequency, EffectiveTotalTime(s, cal), s.deadline, StartOrToday(s, cal), dailyHours)
  {
    if s.deadline == "" || s.deadlineType == NoDeadline || s.isOneTimeTask then NoConflict
    else
      var effectiveTime := EffectiveTotalTime(s, cal);
      if effectiveTime <= 0.0 then NoConflict
      else engine.checkConflict(s.targetFrequency, effectiveTime, s.deadline, StartOrToday(s, cal), dailyHours)
  }

  /**
   A reported conflict always comes from the engine, asked about a task with
   an applicable deadline, several sittings and a positive number of hours.
   */
  lemma ConflictNeedsEngine(s: FormState, cal: Calendar, dailyHours: real, engine: Engine)
    requires DeadlineConflict(s, cal, dailyHours, engine).hasConflict
    ensures DeadlineApplies(s) && !s.isOneTimeTask && EffectiveTotalTime(s, cal) > 0.0
    ensures engine.checkConflict(s.targetFrequency, EffectiveTotalTime(s, cal), s.deadline, StartOrToday(s, cal), dailyHours).hasConflict
  {
  }

  /** When the check is skipped, no two engines can be told apart. */
  lemma SkippedConflictIgnoresEngine(s: FormState, cal: Calendar, dailyHours: real, e1: Engine, e2: Engine)
    requires ConflictCheckSkipped(s, cal)
    ensures DeadlineConflict(s, cal, dailyHours, e1) == DeadlineConflict(s, cal, dailyHours, e2)
  {
  }

  /** The outcome of the one-sitting slot check shown in the form. */
  datatype SlotCheck = SlotCheck(hasSlot: bool, message: string)

  const NoSlotFallback := "No available time slot found for this one-sitting task on the deadline date."

  /** The engine's reason when it gives a non-empty one, the fixed fallback text otherwise. */
  function SlotMessage(reason: Option<string>): (m: string)
    ensures m != ""
    ensures reason.Some? && reason.value != "" ==> m == reason.value
    ensures !(reason.Some? && reason.value != "") ==> m == NoSlotFallback
  {
    if reason.Some? && reason.value != "" then reason.value else NoSlotFallback
  }

  /** The slot search runs: a one-sitting task with a deadline and a positive duration. */
  predicate SlotSearchRuns(s: FormState, cal: Calendar) {
    s.isOneTimeTask && s.deadline != "" && EffectiveTotalTime(s, cal) > 0.0
  }

  /**
   The one-sitting slot check: a slot is missing exactly when the search
   runs on the deadline date and the engine finds nothing; a missing slot
   always carries a non-empty message, a present one the empty message.
   */
  function OneSittingSlotCheck(s: FormState, cal: Calendar, engine: Engine): (r: SlotCheck)
    ensures !r.hasSlot <==>
      SlotSearchRuns(s, cal) && !engine.findSlot(s.deadline, EffectiveTotalTime(s, cal)).found
    ensures r.hasSlot <==> r.message == ""
    ensures !r.hasSlot ==> r.message == SlotMessage(engine.findSlot(s.deadline, EffectiveTotalTime(s, cal)).reason)
  {
    if !s.isOneTimeTask || s.deadline == "" || EffectiveTotalTime(s, cal) <= 0.0 then SlotCheck(true, "")
    else
      var slot := engine.findSlot(s.deadline, EffectiveTotalTime(s, cal));
      if !slot.found then SlotCheck(false, SlotMessage(slot.reason))
      else SlotCheck(true, "")
  }

  /** Tasks of several sittings always have a slot, whatever the engine says. */
  lemma MultiSessionAlwaysHasSlot(s: FormState, cal: Calendar, engine: Engine)
    requires !s.isOneTimeTask
    ensures OneSittingSlotCheck(s, cal, engine) == SlotCheck(true, "")
  {
  }
}

=== FILE: submit.dfy ===
/**
 Submitting the form: an invalid draft is refused, a valid one becomes the
 task record handed to the caller.
 */
module Submit {
  import opened Optional
  import opened Text
  import opened Projection
  import opened Form
  import opened Scheduling
  import opened Validation

  datatype TaskStatus = Pending

  /** The task handed to `onAddTask` (the caller assigns its id and creation time). */
  datatype Task = Task(
    title: string,
    description: string,
    deadline: string,
    estimatedHours: real,
    category: string,
    impact: string,
    status: TaskStatus,
    priority: bool,
    importance: bool,
    deadlineType: DeadlineType,
    schedulingPreference: SchedulingPreference,
    targetFrequency: Frequency,
    maxSessionLength: Option<real>,
    preferredSessionDuration: Option<real>,
    isOneTimeTask: bool,
    startDate: string)

  /** The category option that switches to the free-text category field. */
  const CustomCategoryOption := "Custom..."

  /** The free-text category when "Custom..." is chosen, the chosen category otherwise. */
  function SubmittedCategory(s: FormState): string {
    if s.category == CustomCategoryOption then s.customCategory else s.category
  }

  /**
   The task record built from a draft: trimmed title and description, the
   effective hours, the submitted category, a pending status with priority
   and importance both meaning high impact, a session-length cap only for
   tasks without a deadline, a preferred session length only in session
   mode, and the start date or today; every other field is copied.
   */
  function ToTask(s: FormState, cal: Calendar): (t: Task)
    ensures t.title == Trim(s.title) && Trim(t.title) == t.title
    ensures t.description == Trim(s.description)
    ensures t.deadline == s.deadline
    ensures t.estimatedHours == EffectiveTotalTime(s, cal)
    ensures t.category == (if s.category == CustomCategoryOption then s.customCategory else s.category)
    ensures t.impact == s.impact
    ensures t.status == Pending
    ensures t.priority == t.importance == (s.impact == "high")
    ensures t.deadlineType == s.deadlineType
    ensures t.schedulingPreference == s.schedulingPreference
    ensures t.targetFrequency == s.targetFrequency
    ensures t.maxSessionLength == (if s.deadlineType == NoDeadline then Some(s.maxSessionLength) else None)
    ensures t.preferredSessionDuration == (if s.estimationMode == Session then Some(SessionDuration(s)) else None)
    ensures t.isOneTimeTask == s.isOneTimeTask
    ensures t.startDate == (if s.startDate == "" then cal.today else s.startDate)
  {
    TrimIdempotent(s.title);
    Task(
      title := Trim(s.title),
      description := Trim(s.description),
      deadline := s.deadline,
      estimatedHours := EffectiveTotalTime(s, cal),
      category := SubmittedCategory(s),
      impact := s.impact,
      status := Pending,
      priority := s.impact == "high",
      importance := s.impact == "high",
      deadlineType := s.deadlineType,
      schedulingPreference := s.schedulingPreference,
      targetFrequency := s.targetFrequency,
      maxSessionLength := if s.deadlineType == NoDeadline then Some(s.maxSessionLength) else None,
      preferredSessionDuration := if s.estimationMode == Session then Some(SessionDuration(s)) else None,
      isOneTimeTask := s.isOneTimeTask,
      startDate := StartOrToday(s, cal))
  }

  /**
   The submit handler: `None` (errors shown, nothing added) exactly when the
   form is invalid; otherwise the task built from the draft, whose title is
   never empty.
   */
  function HandleSubmit(s: FormState, cal: Calendar, dailyHours: real, engine: Engine): (r: Option<Task>)
    ensures r.Some? <==> IsFormValid(s, cal, dailyHours, engine)
    ensures r.Some? ==> r.value == ToTask(s, cal) && r.value.title != ""
  {
    if IsFormValid(s, cal, dailyHours, engine) then Some(ToTask(s, cal)) else None
  }

  /**
   A submitted one-sitting task has a deadline, fits in one day's available
   hours, and the engine found a slot for it on the deadline date whenever
   it needs any time.
   */
  lemma SubmittedOneSittingFits(s: FormState, cal: Calendar, dailyHours: real, engine: Engine)
    requires IsFormValid(s, cal, dailyHours, engine)
    requires s.isOneTimeTask
    ensures var t := HandleSubmit(s, cal, dailyHours, engine).value;
      && t.deadline != ""
      && t.estimatedHours <= dailyHours
      && (t.estimatedHours > 0.0 ==> engine.findSlot(t.deadline, t.estimatedHours).found)
  {
  }

  /** In total-time mode a submitted task always carries a positive number of hours. */
  lemma SubmittedTotalModeHasHours(s: FormState, cal: Calendar, dailyHours: real, engine: Engine)
    requires IsFormValid(s, cal, dailyHours, engine)
    requires s.estimationMode == Total
    ensures HandleSubmit(s, cal, dailyHours, engine).value.estimatedHours > 0.0
  {
  }

  /** A session-mode draft without a deadline that still holds a direct estimate of two hours. */
  const StaleSessionDraft := FormState(
    title := "Essay", description := "", deadline := "",
    estimatedHours := 2, estimatedMinutes := 0,
    category := "", customCategory := "", impact := "high", taskType := "",
    deadlineType := NoDeadline, schedulingPreference := Consistent,
    targetFrequency := Daily, maxSessionLength := 2.0, isOneTimeTask := false,
    startDate := "2024-01-01", estimationMode := Session,
    sessionDurationHours := 0, sessionDurationMinutes := 30)

  const FixedCalendar := Calendar("2024-01-01", (d: string) => 0)

  const IdleEngine := Engine(
    (f: Frequency, h: real, dl: string, st: string, daily: real) => NoConflict,
    (d: string, h: real) => SlotResult(true, None))

  /**
   In session mode the validity test also accepts a stale direct estimate,
   while the submitted hours come from the session projection: the draft
   above is accepted and submitted with zero hours.
   */
  lemma SessionModeMaySubmitZeroHours()
    ensures HandleSubmit(StaleSessionDraft, FixedCalendar, 2.0, IdleEngine).Some?
    ensures HandleSubmit(StaleSessionDraft, FixedCalendar, 2.0, IdleEngine).value.estimatedHours == 0.0
  {
    var s, cal, engine := StaleSessionDraft, FixedCalendar, IdleEngine;
    assert Trim(s.title) != "" by {
      assert !IsWhitespace(s.title[0]);
      assert !IsBlank(s.title);
    }
    assert HasTimeEstimate(s, cal) by {
      assert DirectTotal(s) > 0.0;
    }
    assert NotInPast(s.startDate, cal);
    assert IsFormValid(s, cal, 2.0, engine);
    assert EffectiveTotalTime(s, cal) == 0.0 by {
      assert !DeadlineApplies(s);
    }
  }
}

=== FILE: text.dfy ===
/**
 String helpers the form relies on: JavaScript's `String.prototype.trim`, the
 "is this text field filled in" test, and decimal rendering of whole numbers
 (what a template literal `${n}` prints for a non-negative integer below
 1e21; larger doubles print in exponent form, which is not modelled).
 */
module Text {

  /** The characters `trim` strips: ECMAScript WhiteSpace and LineTerminator. */
  predicate IsWhitespace(c: char) {
    || c == ' ' || c == '\t' || c == '\n' || c == '\r'
    || c == '\U{000B}' || c == '\U{000C}' || c == '\U{00A0}' || c == '\U{1680}'
    || ('\U{2000}' <= c <= '\U{200A}')
    || c == '\U{2028}' || c == '\U{2029}' || c == '\U{202F}' || c == '\U{205F}'
    || c == '\U{3000}' || c == '\U{FEFF}'
  }

  /** Empty or made only of whitespace. */
  predicate IsBlank(s: string) {
    forall k :: 0 <= k < |s| ==> IsWhitespace(s[k])
  }

  /** Index of the first non-whitespace character at or after `i`, or `|s|` if there is none. */
  function SkipSpaceForward(s: string, i: nat): (j: nat)
    requires i <= |s|
    ensures i <= j <= |s|
    ensures forall k :: i <= k < j ==> IsWhitespace(s[k])
    ensures j < |s| ==> !IsWhitespace(s[j])
    decreases |s| - i
  {
    if i < |s| && IsWhitespace(s[i]) then SkipSpaceForward(s, i + 1) else i
  }

  /** Index just past the last non-whitespace character before `j`, and not below `lo`. */
  function SkipSpaceBackward(s: string, lo: nat, j: nat): (e: nat)
    requires lo <= j <= |s|
    ensures lo <= e <= j
    ensures forall k :: e <= k < j ==> IsWhitespace(s[k])
    ensures e > lo ==> !IsWhitespace(s[e - 1])
    decreases j
  {
    if j > lo && IsWhitespace(s[j - 1]) then SkipSpaceBackward(s, lo, j - 1) else j
  }

  /**
   `s.trim()`: the text is split into blank padding, the result, and blank
   padding, and the result neither starts nor ends with whitespace.
   */
  function Trim(s: string): (r: string)
    ensures exists p, q :: IsBlank(p) && IsBlank(q) && s == p + r + q
    ensures r != [] ==> !IsWhitespace(r[0]) && !IsWhitespace(r[|r| - 1])
    ensures r == [] <==> IsBlank(s)
  {
    var lo := SkipSpaceForward(s, 0);
    var hi := SkipSpaceBackward(s, lo, |s|);
    TrimParts(s, lo, hi);
    s[lo..hi]
  }

  /** What the two skips leave: blank on both sides, a non-blank core or nothing. */
  lemma TrimParts(s: string, lo: nat, hi: nat)
    requires lo <= hi <= |s|
    requires forall k :: 0 <= k < lo ==> IsWhitespace(s[k])
    requires lo < |s| ==> !IsWhitespace(s[lo])
    requires forall k :: hi <= k < |s| ==> IsWhitespace(s[k])
    requires hi > lo ==> !IsWhitespace(s[hi - 1])
    ensures exists p, q :: IsBlank(p) && IsBlank(q) && s == p + s[lo..hi] + q
    ensures s[lo..hi] == [] <==> IsBlank(s)
    ensures var r := s[lo..hi]; r != [] ==> !IsWhitespace(r[0]) && !IsWhitespace(r[|r| - 1])
  {
    var p, q := s[..lo], s[hi..];
    assert s == p + s[lo..hi] + q;
    assert IsBlank(p) && IsBlank(q);
    if lo < hi {
      assert !IsWhitespace(s[lo]);
    }
  }

  /** Trimming twice is trimming once. */
  lemma TrimIdempotent(s: string)
    ensures Trim(Trim(s)) == Trim(s)
  {
    var r := Trim(s);
    if r != [] {
      assert SkipSpaceForward(r, 0) == 0;
      assert SkipSpaceBackward(r, 0, |r|) == |r|;
    }
  }

  predicate IsDigit(c: char) {
    '0' <= c <= '9'
  }

  predicate IsDigits(s: string) {
    forall k :: 0 <= k < |s| ==> IsDigit(s[k])
  }

  function DigitChar(d: nat): (c: char)
    requires d < 10
    ensures IsDigit(c)
  {
    (48 + d) as char
  }

  function DigitValue(c: char): (d: nat)
    requires IsDigit(c)
    ensures d < 10 && DigitChar(d) == c
  {
    c as int - 48
  }

  /** Decimal text of `n`, without leading zeros. */
  function NatToString(n: nat): (r: string)
    ensures r != [] && IsDigits(r)
    ensures r[0] == '0' <==> n == 0
    ensures r[0] == '0' ==> |r| == 1
  {
    if n < 10 then [DigitChar(n)]
    else NatToString(n / 10) + [DigitChar(n % 10)]
  }

  /** Value of a string of decimal digits (empty reads as 0). */
  function ParseDigits(s: string): nat
    requires IsDigits(s)
  {
    if s == [] then 0
    else ParseDigits(s[..|s| - 1]) * 10 + DigitValue(s[|s| - 1])
  }

  /** Reading back the decimal text of `n` gives `n`. */
  lemma {:induction false} ParseNatToString(n: nat)
    ensures ParseDigits(NatToString(n)) == n
  {
    var s := NatToString(n);
    if n >= 10 {
      ParseNatToString(n / 10);
      assert s[..|s| - 1] == NatToString(n / 10);
    }
  }
}

=== FILE: validation.dfy ===
/**
 The form's validity test and its list of error messages, with one message
 per failed requirement.
 */
module Validation {
  import opened Text
  import opened Form
  import opened Scheduling

  /** The requirements a task draft can fail, in the order the form lists them. */
  datatype ValidationError =
    | TitleRequired
    | TimeRequired
    | ImportanceRequired
    | DeadlineInPast
    | StartInPast
    | OneSittingNeedsDeadline
    | OneSittingTooLong
    | OneSittingNoSlot

  /** The text the form shows for each failed requirement. */
  function Message(e: ValidationError): string {
    match e
    case TitleRequired => "Task title is required"
    case TimeRequired => "Time estimation is required"
    case ImportanceRequired => "Task importance is required"
    case DeadlineInPast => "Deadline cannot be in the past"
    case StartInPast => "Start date cannot be in the past"
    case OneSittingNeedsDeadline => "One-sitting tasks require a deadline"
    case OneSittingTooLong => "One-sitting task duration exceeds daily available hours"
    case OneSittingNoSlot => "No available time slot for one-sitting task on deadline date"
  }

  /** The directly entered estimate, whatever the estimation mode. */
  function DirectTotal(s: FormState): real {
    DecimalHours(s.estimatedHours, s.estimatedMinutes)
  }

  /** Some time is estimated: directly, or through a positive session projection in session mode. */
  predicate HasTimeEstimate(s: FormState, cal: Calendar) {
    DirectTotal(s) > 0.0 || (s.estimationMode == Session && SessionBasedTotal(s, cal) > 0.0)
  }

  /** An empty date passes; a set date must not lie before today. */
  predicate NotInPast(date: string, cal: Calendar) {
    date == "" || cal.dayOf(date) >= cal.dayOf(cal.today)
  }

  /** In total mode, "some time is estimated" means exactly that the task carries positive hours. */
  lemma TotalModeEstimateIsPositiveHours(s: FormState, cal: Calendar)
    requires s.estimationMode == Total
    ensures HasTimeEstimate(s, cal) <==> EffectiveTotalTime(s, cal) > 0.0
  {
  }

  predicate IsOneSittingTooLong(s: FormState, cal: Calendar, dailyHours: real) {
    s.isOneTimeTask && EffectiveTotalTime(s, cal) > dailyHours
  }

  predicate IsOneSittingWithoutSlot(s: FormState, cal: Calendar, engine: Engine) {
    s.isOneTimeTask && !OneSittingSlotCheck(s, cal, engine).hasSlot
  }

  /**
   The form's validity conjunction, as the submit button sees it. A valid
   draft has a title and an importance; in total mode it carries positive
   hours; a valid one-sitting task has a deadline and fits in one day.
   */
  function IsFormValid(s: FormState, cal: Calendar, dailyHours: real, engine: Engine): (valid: bool)
    ensures valid ==> !IsBlank(s.title) && s.impact != ""
    ensures valid && s.estimationMode == Total ==> EffectiveTotalTime(s, cal) > 0.0
    ensures valid && s.isOneTimeTask ==> s.deadline != "" && EffectiveTotalTime(s, cal) <= dailyHours
  {
    && Trim(s.title) != ""
    && HasTimeEstimate(s, cal)
    && s.impact != ""
    && NotInPast(s.deadline, cal)
    && NotInPast(s.startDate, cal)
    && (!s.isOneTimeTask
        || (s.deadline != "" && !IsOneSittingTooLong(s, cal, dailyHours) && !IsOneSittingWithoutSlot(s, cal, engine)))
  }

  /** Whether the draft fails the requirement behind `e`. */
  predicate Fails(e: ValidationError, s: FormState, cal: Calendar, dailyHours: real, engine: Engine) {
    match e
    case TitleRequired => Trim(s.title) == ""
    case TimeRequired => DirectTotal(s) <= 0.0 && (s.estimationMode != Session || SessionBasedTotal(s, cal) <= 0.0)
    case ImportanceRequired => s.impact == ""
    case DeadlineInPast => !NotInPast(s.deadline, cal)
    case StartInPast => !NotInPast(s.startDate, cal)
    case OneSittingNeedsDeadline => s.isOneTimeTask && s.deadline == ""
    case OneSittingTooLong => IsOneSittingTooLong(s, cal, dailyHours)
    case OneSittingNoSlot => IsOneSittingWithoutSlot(s, cal, engine)
  }

  /** Every requirement, in display order. */
  const AllErrors: seq<ValidationError> :=
    [TitleRequired, TimeRequired, ImportanceRequired, DeadlineInPast, StartInPast,
     OneSittingNeedsDeadline, OneSittingTooLong, OneSittingNoSlot]

  /** Position of a requirement in the display order. */
  function Rank(e: ValidationError): (i: nat)
    ensures i < |AllErrors| && AllErrors[i] == e
  {
    match e
    case TitleRequired => 0
    case TimeRequired => 1
    case ImportanceRequired => 2
    case DeadlineInPast => 3
    case StartInPast => 4
    case OneSittingNeedsDeadline => 5
    case OneSittingTooLong => 6
    case OneSittingNoSlot => 7
  }

  /** Listed in strictly increasing display order, hence each at most once. */
  predicate InDisplayOrder(es: seq<ValidationError>) {
    forall i, j :: 0 <= i < j < |es| ==> Rank(es[i]) < Rank(es[j])
  }

  lemma AllErrorsInDisplayOrder()
    ensures InDisplayOrder(AllErrors)
  {
    forall i, j | 0 <= i < j < |AllErrors|
      ensures Rank(AllErrors[i]) < Rank(AllErrors[j])
    {
      assert Rank(AllErrors[i]) == i && Rank(AllErrors[j]) == j;
    }
  }

  lemma AllErrorsListed()
    ensures forall e :: e in AllErrors
  {
    forall e ensures e in AllErrors {
      match e
      case TitleRequired =>
      case TimeRequired =>
      case ImportanceRequired =>
      case DeadlineInPast =>
      case StartInPast =>
      case OneSittingNeedsDeadline =>
      case OneSittingTooLong =>
      case OneSittingNoSlot =>
    }
  }

  /** The members of `es` the draft fails, keeping their order. */
  function FailedAmong(es: seq<ValidationError>, s: FormState, cal: Calendar, dailyHours: real, engine: Engine)
    : (r: seq<ValidationError>)
    ensures forall e :: e in r <==> e in es && Fails(e, s, cal, dailyHours, engine)
    ensures r == [] <==> forall i :: 0 <= i < |es| ==> !Fails(es[i], s, cal, dailyHours, engine)
    ensures |r| <= |es|
    ensures InDisplayOrder(es) ==> InDisplayOrder(r)
  {
    if es == [] then []
    else
      var rest := FailedAmong(es[1..], s, cal, dailyHours, engine);
      if Fails(es[0], s, cal, dailyHours, engine) then
        OrderedCons(es, rest);
        [es[0]] + rest
      else rest
  }

  /** Putting the head of an ordered list before any ordered selection of its tail keeps the order. */
  lemma OrderedCons(es: seq<ValidationError>, rest: seq<ValidationError>)
    requires es != []
    requires forall e :: e in rest ==> e in es[1..]
    requires InDisplayOrder(es) ==> InDisplayOrder(rest)
    ensures InDisplayOrder(es) ==> InDisplayOrder([es[0]] + rest)
  {
    if InDisplayOrder(es) {
      var r := [es[0]] + rest;
      forall i, j | 0 <= i < j < |r|
        ensures Rank(r[i]) < Rank(r[j])
      {
        if i == 0 {
          assert r[j] in es[1..];
          var k :| 0 <= k < |es[1..]| && es[1..][k] == r[j];
          assert Rank(es[0]) < Rank(es[k + 1]);
        } else {
          assert r[i] == rest[i - 1] && r[j] == rest[j - 1];
        }
      }
    }
  }

  /**
   The failed requirements in display order: each requirement is listed
   exactly when the draft fails it, and at most once.
   */
  function Errors(s: FormState, cal: Calendar, dailyHours: real, engine: Engine): (r: seq<ValidationError>)
    ensures forall e :: e in r <==> Fails(e, s, cal, dailyHours, engine)
    ensures r == [] <==> forall e :: !Fails(e, s, cal, dailyHours, engine)
    ensures |r| <= |AllErrors|
    ensures InDisplayOrder(r)
  {
    AllErrorsListed();
    AllErrorsInDisplayOrder();
    FailedAmong(AllErrors, s, cal, dailyHours, engine)
  }

  /** The messages of the failed requirements, in display order. */
  function ValidationErrors(s: FormState, cal: Calendar, dailyHours: real, engine: Engine): (r: seq<string>)
    ensures |r| == |Errors(s, cal, dailyHours, engine)|
    ensures forall i :: 0 <= i < |r| ==> r[i] == Message(Errors(s, cal, dailyHours, engine)[i])
  {
    var errors := Errors(s, cal, dailyHours, engine);
    seq(|errors|, i requires 0 <= i < |errors| => Message(errors[i]))
  }

  /** The form is valid exactly when it has no error messages. */
  lemma {:induction false} ValidIffNoErrors(s: FormState, cal: Calendar, dailyHours: real, engine: Engine)
    ensures IsFormValid(s, cal, dailyHours, engine) <==> ValidationErrors(s, cal, dailyHours, engine) == []
  {
    var r := Errors(s, cal, dailyHours, engine);
    assert |ValidationErrors(s, cal, dailyHours, engine)| == |r|;
    if IsFormValid(s, cal, dailyHours, engine) {
      forall e ensures !Fails(e, s, cal, dailyHours, engine) {
        match e
        case TitleRequired =>
        case TimeRequired =>
        case ImportanceRequired =>
        case DeadlineInPast =>
        case StartInPast =>
        case OneSittingNeedsDeadline =>
        case OneSittingTooLong =>
        case OneSittingNoSlot =>
      }
    } else {
      var e :=
        if Trim(s.title) == "" then TitleRequired
        else if !HasTimeEstimate(s, cal) then TimeRequired
        else if s.impact == "" then ImportanceRequired
        else if !NotInPast(s.deadline, cal) then DeadlineInPast
        else if !NotInPast(s.startDate, cal) then StartInPast
        else if s.deadline == "" then OneSittingNeedsDeadline
        else if IsOneSittingTooLong(s, cal, dailyHours) then OneSittingTooLong
        else OneSittingNoSlot;
      assert Fails(e, s, cal, dailyHours, engine);
    }
  }

  /** A task of several sittings never reports a one-sitting error, whatever the engine says. */
  lemma OneSittingChecksOnlyForOneSitting(s: FormState, cal: Calendar, dailyHours: real, engine: Engine)
    requires !s.isOneTimeTask
    ensures OneSittingNeedsDeadline !in Errors(s, cal, dailyHours, engine)
    ensures OneSittingTooLong !in Errors(s, cal, dailyHours, engine)
    ensures OneSittingNoSlot !in Errors(s, cal, dailyHours, engine)
  {
    assert !Fails(OneSittingNeedsDeadline, s, cal, dailyHours, engine);
    assert !Fails(OneSittingTooLong, s, cal, dailyHours, engine);
    assert !Fails(OneSittingNoSlot, s, cal, dailyHours, engine);
  }
}
